=== FILE: README.md ===
# Telco customer-service agent backend — Dafny model

This project models the deterministic core of a multi-agent telecom
customer-service backend. A dispatcher agent (the "Customer Service Agent")
hands a conversation to one of three specialists: roaming recommendation,
plan purchase and plan cancellation. Each specialist hands back to the
dispatcher when it is done. Every agent is gated by two input guardrails,
relevance and jailbreak. The agents share one conversation context holding
the customer's name, phone number and active ReadyRoam plan. The tools read
and write that context and an append-only plan record store.

Two backends are modelled side by side. `Current` is
`python-backend/main.py`; `Earlier` is its predecessor
`python-backend/main2.py`. Where they differ, a flag on `AgentContext.Backend`
says so. The operations take the flag's value as a boolean argument, and the
lemmas about each backend pass `Current.LocalCheck()`, `Earlier.Persist()` and
so on:

- `LocalCheck`: only the current backend rejects a lookup for the home market.
- `Persist`: only the current backend writes to the record store.
- `GeneratesPhone`: only the earlier backend starts a session with a demo phone number.

Modules:

- `Wrappers`: `Option` and `Result`.
- `Text`: ASCII case folding (`lower`, `capitalize`) and `str(int)`, with the
  decimal round trip `int(str(n)) == n`.
- `RoamingLookup` (`roaming_plans_lookup_tool`): the recommendation is the
  least-ranked tier whose locations contain every folded destination. The
  tiers rank neighbours < asia < worldwide < others. The reply is "coverage
  unavailable" when no tier covers every destination. The source's
  max-intersection scan (`ScanTiers`, `MinByRank`) is proved equal to the
  reference definition `NarrowestCovering`.
- `AgentContext`: the context, the store rows, the session and the initial
  context.
- `Tools`: identity capture, purchase and cancellation as pure `Session`
  transitions. A failed tool returns the session it was given.
- `Guardrails`: how a classifier verdict becomes a tripwire.
- `Agents`: per-agent tools, guardrails and the handoff graph. The graph is
  built as declared, then the back-edges are wired in.
- `Instructions`: how the context fills the phone and plan slots of the
  specialists' instructions.

The store's plan column is text. An absent context plan is written as the
text `"None"`, the way a Python f-string renders `None`. Identity capture
copies the stored text back into the context as it is. The model keeps this
exactly (`AgentContext.Str`, `Tools.CaptureIdentity`).

Three behaviours of the code are easy to miss and are kept as written:

- Identity capture overwrites both the name and the phone on every call
  (main.py:81-82), not only the first time.
- A first capture writes a row holding the text of whatever plan the context
  already has (main.py:94-95).
- Only main.py rejects a lookup that includes "singapore" (main.py:110-111).
  main2.py treats it as an ordinary location.

## Model

| member | source | states |
|---|---|---|
| `Text.Lower` | python-backend/main.py:107 | folding keeps the length and folds each character on its own |
| `Text.LowerIdempotent` | python-backend/main.py:107 | folding a folded destination changes nothing, so the folded set is a canonical key |
| `Text.Capitalize` | python-backend/main.py:135 | the first character is upper-cased and every later character folded to lower case, so the length is kept |
| `Text.DecimalRoundTrip` | python-backend/main2.py:45 | reading the rendered digits back gives the drawn number |
| `Text.DecimalLength` | python-backend/main2.py:45 | a number with k+1 digits renders as k+1 characters |
| `AgentContext.Str` | python-backend/main.py:192 | a present value renders as itself; the text "None" comes from exactly two contexts, an absent value and the text "None" itself |
| `AgentContext.InitialContext` | python-backend/main2.py:38-46 | a new context has no name and no plan; the earlier backend's phone is 8 digits: '7' then the decimal of a draw in [1000000, 9999999]; the current backend (main.py:58-66) has no phone |
| `AgentContext.InitialPhoneDeterminesDraw` | python-backend/main2.py:45 | different draws give different demo phone numbers |
| `RoamingLookup.Normalize` | python-backend/main.py:107 | every destination's folded form is in the request set, and every member of the set is the folded form of some destination |
| `RoamingLookup.ScanTiers` | python-backend/main.py:120-129 | the scan's maximum is -1 iff no key was visited, never below -1, and the tie list is non-empty once a key was visited |
| `RoamingLookup.ScanIsUpperBound` | python-backend/main.py:120-129 | after the scan, no key overlaps the request more than the recorded maximum |
| `RoamingLookup.ScanMaximumReached` | python-backend/main.py:120-129 | some key reaches the recorded maximum when the map is non-empty |
| `RoamingLookup.ScanTies` | python-backend/main.py:120-129 | a key is in the tie list exactly when it is a key and its overlap equals the maximum |
| `RoamingLookup.MinByRank` | python-backend/main.py:134-135 | the chosen tier is in the tie list and no tied tier has a smaller rank |
| `RoamingLookup.OverlapBound` | python-backend/main.py:123 | a tier overlaps the request in at most \|q\| places, and in exactly \|q\| iff it covers the whole request |
| `RoamingLookup.MaxIntersectBounded` | python-backend/main.py:131 | the maximum intersection never exceeds the number of folded destinations |
| `RoamingLookup.Lookup` | python-backend/main.py:101-135 | fails iff local checking is on and a folded destination is "singapore"; otherwise "coverage unavailable" iff no tier covers every folded destination, else a covering tier of least rank among covering tiers |
| `RoamingLookup.NarrowestCovering` | python-backend/main.py:118-135 | reference: no result iff no tier covers the request; otherwise the covering tier of least rank |
| `RoamingLookup.LookupIsNarrowestCovering` | python-backend/main.py:120-135 | past the local check, the scan-and-tie-break answer equals the reference narrowest covering tier |
| `RoamingLookup.LookupIgnoresKeyOrder` | python-backend/main.py:122-135 | two coverage maps with the same contents give the same answer whatever their key order |
| `RoamingLookup.LookupIgnoresCaseAndDuplicates` | python-backend/main.py:107 | destination lists with the same folded names give the same answer, regardless of case and repetition |
| `RoamingLookup.LocalMarketAlwaysRejected` | python-backend/main.py:109-111 | in the current backend, any spelling of "singapore" among the destinations makes the lookup fail with no recommendation |
| `RoamingLookup.NoLocalCheckNeverFails` | python-backend/main2.py:58-82 | in the earlier backend the lookup never fails, and "singapore" is an ordinary location under the same narrowest-covering rule |
| `RoamingLookup.EmptyRequestGetsLowestRank` | python-backend/main.py:120-135 | an empty request against a non-empty map recommends the lowest-ranked tier present |
| `RoamingLookup.Message` | python-backend/main.py:131-135 | the unavailable reply is 84 characters; a tier's reply starts "ReadyRoam " followed by the capitalised tier key, and is 43 characters longer than the key |
| `RoamingLookup.MessageInjective` | python-backend/main.py:131-135 | different outcomes give different reply texts, so the unavailable reply is never a tier's reply |
| `RoamingLookup.IsTierName` | python-backend/main.py:165 | a plan name passes the purchase check iff its folded form is one of the four tier keys |
| `RoamingLookup.RecommendedTierIsPurchasable` | python-backend/main.py:135 | the capitalised tier name in a recommendation passes the purchase tool's check |
| `Tools.PlansFor` | python-backend/main.py:85-88 | the query returns no plans iff no row matches the customer; its last plan is the one in the customer's latest row |
| `Tools.LatestPlan` | python-backend/main.py:89-91 | absent iff the customer has no row; otherwise the plan text of their latest row |
| `Tools.LatestPlanAfterAppend` | python-backend/main.py:91 | a row just appended for a customer becomes their latest plan |
| `Tools.LatestPlanAfterOtherAppend` | python-backend/main.py:86-91 | a row appended for another customer does not change this customer's latest plan |
| `Tools.CaptureIdentity` | python-backend/main.py:81-97 | name and phone are overwritten; with prior rows the plan becomes the latest row's text and the store is unchanged; otherwise one row with the current plan's text is appended and the plan is kept |
| `Tools.CaptureTwice` | python-backend/main.py:81-97 | two captures of one identity append at most one row; the second writes nothing; when the first capture wrote the row, the second turns a missing plan into the text "None" |
| `Tools.Purchase` | python-backend/main.py:158-177 | fails iff the folded plan is not one of the four tier keys, changing nothing; on success the context plan is the argument as given, name and phone are kept, and exactly one (name, phone, plan) row is appended when persisting |
| `Tools.PurchaseReceipt` | python-backend/main.py:177 | the receipt shows the plan as given at a fixed offset and ends with the phone as an f-string renders it |
| `Tools.EarlierPurchaseTouchesOnlyPlan` | python-backend/main2.py:94-98 | in the earlier backend, which keeps no store, a valid purchase changes the context plan and nothing else |
| `Tools.Cancel` | python-backend/main.py:180-197 | fails iff there is no context plan, changing nothing; otherwise the plan is cleared and exactly one row with plan text "None" is appended when persisting |
| `Tools.CancelReceipt` | python-backend/main.py:197 | the receipt is the fixed wording followed by the phone as an f-string renders it |
| `Tools.CancelEarlierAsWritten` | python-backend/main2.py:101-108 | every call fails with the undefined name `new_roaming_plan` and leaves the session unchanged |
| `Tools.EarlierCancelNeverClears` | python-backend/main2.py:106-107 | even with an active plan the earlier cancellation fails and the plan stays; the corrected cancellation clears it |
| `Tools.PurchaseThenCancel` | python-backend/main.py:164-194 | cancelling right after a purchase succeeds and restores an absent plan; the store gains the plan row, then a "None" row |
| `Tools.CancelTwiceFails` | python-backend/main.py:185 | a second cancellation fails with no active plan and changes nothing |
| `Tools.PurchaseAdoptedOnRecapture` | python-backend/main.py:84-91 | a persisted purchase is the plan the next capture of the same identity adopts, writing nothing |
| `Tools.ReturningCustomerCancels` | python-backend/main.py:81-194 | a customer whose latest row names a plan gets it on capture; cancelling then clears it and appends their "None" row |
| `Tools.RecapturedCancellationLooksActive` | python-backend/main.py:91 | after a persisted cancellation, re-capturing the identity yields the plan text "None", and a second cancellation succeeds and writes another row |
| `Tools.ParsePlan` | python-backend/main.py:192 | reading stored plan text back: absent iff the text is "None", otherwise the text itself |
| `Tools.ParsePlanRoundTrip` | python-backend/main.py:192 | every plan a tool can hold (absent, or a tier name) survives being written as text and read back |
| `Tools.CaptureIdentityCorrected` | python-backend/main.py:84-97 | name and phone are overwritten; with prior rows the store is unchanged, the plan is the latest row's text read back through ParsePlan, and it is never the text \"None\"; otherwise the capture behaves as the one written |
| `Tools.CorrectedCaptureAfterCancelHasNoPlan` | python-backend/main.py:185-194 | with the corrected capture, a cancelled plan stays absent after re-identification, and cancelling again fails |
| `Tools.CorrectedCaptureAdoptsPurchase` | python-backend/main.py:171-172 | with the corrected capture, a persisted purchase is still adopted exactly as written |
| `Tools.ToolsPreservePlansWellFormed` | python-backend/main.py:81-197 | if every stored plan and the context plan are tier names or "None", capture, purchase and cancellation keep it so |
| `Guardrails.RelevanceGuardrail` | python-backend/main.py:232-239 | trips exactly when the classifier says the message is not relevant; the verdict is passed on unchanged |
| `Guardrails.JailbreakGuardrail` | python-backend/main2.py:175-182 | trips exactly when the classifier says the message is not safe; the verdict is passed on unchanged |
| `Agents.Declared` | python-backend/main.py:296-385 | as constructed, every agent carries both guardrails; each agent carries exactly the tools it owns (identity capture for the dispatcher, in the current backend only; lookup and FAQ for the roaming agent; purchase and cancellation for their agents), each once; only the dispatcher declares handoffs, and they are to every specialist and only to specialists |
| `Agents.Config` | python-backend/main.py:387-390 | the wiring step changes nothing but the handoffs, and appends the dispatcher to each specialist's list |
| `Agents.DispatcherHandoffs` | python-backend/main.py:378-383 | the dispatcher's handoffs are exactly roaming, purchase and cancellation, in that order |
| `Agents.SpecialistHandoffs` | python-backend/main.py:387-390 | each specialist's handoffs are exactly [dispatcher] |
| `Agents.NoSpecialistToSpecialist` | python-backend/main2.py:286-289 | no specialist hands off to a specialist |
| `Agents.HandoffGraphSymmetric` | python-backend/main.py:378-390 | every handoff edge has its reverse |
| `Agents.TwoHandoffsReachEverywhere` | python-backend/main2.py:277-289 | every agent reaches every other within two handoffs |
| `Agents.EveryAgentGuarded` | python-backend/main.py:296-385 | every agent carries both the relevance and the jailbreak guardrail |
| `Agents.ActiveAgentTrips` | python-backend/main2.py:143-182 | whatever agent is active, some attached guardrail trips iff the message is judged irrelevant or unsafe |
| `Agents.IdentityToolOnlyOnDispatcher` | python-backend/main.py:362-385 | only the current backend's dispatcher carries the identity tool; the earlier dispatcher (main2.py:269-284) has no tools |
| `Agents.ToolHasOneOwner` | python-backend/main.py:301-377 | no tool is carried by two agents |
| `Instructions.PhoneSlot` | python-backend/main.py:282 | the phone slot is never empty, and it is either "[unknown]" or the context's phone number |
| `Instructions.PlanSlot` | python-backend/main.py:311-316 | a present plan is shown as it is; the slot reads "None" iff the plan is absent or is the text "None" |
| `Instructions.RoamingInstructions` | python-backend/main.py:278-294 | the text is the prompt prefix, a line break, the opening prose, the phone slot and the closing prose, in that order; its length is the prose's plus the phone slot's |
| `Instructions.PlanAgentInstructions` | python-backend/main.py:306-350 | the purchase and cancellation texts are the prompt prefix, a line break, the opening prose, the phone slot, the middle prose, the plan slot and the closing prose, in that order; their length is the prose's plus both slots' |
| `Instructions.PhoneSlotSentinel` | python-backend/main.py:282 | the phone slot shows "[unknown]" iff the phone is absent, empty, or literally "[unknown]", and is never empty |
| `Instructions.PhoneSlotShowsPhone` | python-backend/main2.py:220 | a non-empty phone number is shown as it is |
| `Instructions.NoPlanAndNoneTextRenderAlike` | python-backend/main.py:311-316 | an absent plan and the text "None" render identically in the purchase and cancellation instructions |
| `Instructions.RenderingDependsOnlyOnSlots` | python-backend/main.py:278-294 | contexts with the same phone and plan slots render the same instructions; the name never shows |
| `Instructions.PhoneSlotRecoverable` | python-backend/main2.py:216-230 | the phone slot can be read back from the rendered text at a fixed offset |

## Findings

| source | as written | input that shows it | evidently intended | confidence | as-written member | corrected member |
|---|---|---|---|---|---|---|
| python-backend/main2.py:106 | the cancellation precondition reads `new_roaming_plan`, which is not defined in that tool, so every call raises a NameError before the plan is cleared | any session, e.g. one whose context plan is "Asia" | check the context plan, as main.py:185 does, and clear it | high (not executed) | `Tools.CancelEarlierAsWritten`, shown by `Tools.EarlierCancelNeverClears` | `Tools.Cancel` with persistence off, shown by `Tools.EarlierCancelNeverClears` and `Tools.CancelTwiceFails` |
| python-backend/main.py:91 | capture copies the stored plan text into the context as it is, including the text "None" that cancellation (main.py:192) and a first capture (main.py:95) write | cancel a plan for ("Ann", "81234567"), then capture ("Ann", "81234567") again: the plan becomes "None", and a second cancellation succeeds and appends another row | a stored "None" means no active plan | medium (not executed) | `Tools.CaptureIdentity`, shown by `Tools.RecapturedCancellationLooksActive` | `Tools.CaptureIdentityCorrected`, shown by `Tools.CorrectedCaptureAfterCancelHasNoPlan` and `Tools.CorrectedCaptureAdoptsPurchase` |

## Left out

- The turn loop, guardrail fan-out and handoff execution live in the external
  `agents` SDK (`Runner`, `input_guardrail`, handoffs), which is not part of
  this model. The handoff graph is modelled as declared; scheduling and abort
  semantics are not.
- The guardrail classifiers' judgements come from a language model. They are
  inputs (`RelevanceOutput`, `JailbreakOutput`). The SDK's recommended prompt
  prefix and the instruction prose are uninterpreted strings.
- The dispatcher's instructions are fixed text with no context slot and are
  not modelled.
- `roaming_faq_lookup_tool` (main.py:137-156) is an embedding call plus a
  vector-database top-1 search, both foreign calls. In main2.py it is a
  constant stub.
- SQLite details are not modelled: the f-string SQL (quoting, injection),
  `commit`, the timestamp default and the missing `ORDER BY`. The store is a
  sequence of rows, and "last" means the final matching element.
- The coverage map is a parameter; loading `roaming_locations.json` is not
  modelled. Its keys are typed as tiers. main.py:134 raises `KeyError` when
  a key that is not a tier ties for a maximum covering the whole request;
  maps with such keys are not modelled.
- Setup and I/O scripts are not modelled: `utils/build_plans_db.py`,
  `utils/build_RAG_vdb.py` and `webscrape_faqs.py`.
- `async` is not modelled, nor the start-up assertion on the API key
  (main.py:31). The random draw is an input constrained to its range.
- How the SDK turns a tool's exception into a message for the language model
  is not modelled. A failed precondition is a `Failure` value.
- Confirmation before purchase or cancellation is asked for only in the
  instructions' prose. No tool enforces it, so the model does not either.
- Text.Lower: folds ASCII letters only. Python's `str.lower` also folds
  non-ASCII letters, and some of them become two characters.
- Text.Capitalize: ASCII only, for the same reason. It is applied only to the
  four ASCII tier keys.
- Tools.Purchase: the plan argument is a string, so the `is not None`
  assertion (main.py:164, main2.py:94) has no counterpart. The SDK validates
  the argument as a string before the tool runs.
- RoamingLookup.CoverageMap: a JSON object with repeated keys keeps its last
  value. Only the loaded dictionary is modelled, with each key once.

=== FILE: agent_context.dfy ===
/**
  The shared conversation context (`TelcoAgentContext`), the rows of the
  plan record store, and the two backend variants: `Current` is
  python-backend/main.py, `Earlier` is python-backend/main2.py.
 */
module AgentContext {
  import opened Wrappers
  import Text

  /** Which of the two backends is being modelled; they differ only where a flag says so. */
  datatype Backend = Current | Earlier {
    /** The lookup rejects the home market (main.py only). */
    predicate LocalCheck() { Current? }

    /** Purchase, cancellation and identity capture write to the record store (main.py only). */
    predicate Persist() { Current? }

    /** A fresh session gets a generated demo phone number (main2.py only). */
    predicate GeneratesPhone() { Earlier? }
  }

  /** Customer name, phone number (the account key) and active roaming plan, each possibly absent. */
  datatype Context = Context(customerName: Option<string>, phoneNumber: Option<string>, roamingPlan: Option<string>)

  /** One row of the `plans` table, every column as the text that was inserted. */
  datatype Row = Row(customerName: string, phoneNumber: string, roamingPlan: string)

  /** Everything a tool can read or write: the context and the append-only store. */
  datatype Session = Session(ctx: Context, store: seq<Row>)

  /** How an optional value reads inside an f-string: an absent value is the text "None". */
  function Str(o: Option<string>): (r: string)
    ensures o.Some? ==> r == o.value
    ensures r == "None" <==> o == None || o == Some("None")
  {
    match o
    case None => "None"
    case Some(v) => v
  }

  /** The demo phone numbers are '7' followed by a seven-digit draw. */
  const PhoneLow: int := 1000000
  const PhoneHigh: int := 9999999

  /**
    `create_initial_context`. The earlier backend draws `draw` uniformly
    from [PhoneLow, PhoneHigh] (the draw is an input here); the current
    backend leaves every field empty.
   */
  function InitialContext(b: Backend, draw: int): (c: Context)
    requires b.GeneratesPhone() ==> PhoneLow <= draw <= PhoneHigh
    ensures c.customerName.None? && c.roamingPlan.None?
    ensures !b.GeneratesPhone() ==> c.phoneNumber.None?
    ensures b.GeneratesPhone() ==>
      && c.phoneNumber.Some?
      && |c.phoneNumber.value| == 8
      && c.phoneNumber.value[0] == '7'
      && Text.AllDigits(c.phoneNumber.value)
      && Text.DecimalValue(c.phoneNumber.value[1..]) == draw
  {
    if b.GeneratesPhone() then
      var digits := Text.Decimal(draw);
      Text.DecimalLength(draw, 6);
      Text.DecimalRoundTrip(draw);
      var phone := "7" + digits;
      assert phone[1..] == digits;
      Context(None, Some(phone), None)
    else
      Context(None, None, None)
  }

  /** Two sessions started by the earlier backend from different draws get different phone numbers. */
  lemma InitialPhoneDeterminesDraw(d1: int, d2: int)
    requires PhoneLow <= d1 <= PhoneHigh && PhoneLow <= d2 <= PhoneHigh
    requires InitialContext(Earlier, d1) == InitialContext(Earlier, d2)
    ensures d1 == d2
  {
    var p := InitialContext(Earlier, d1).phoneNumber.value;
    assert Text.DecimalValue(p[1..]) == d1;
  }
}

=== FILE: agents.dfy ===
/**
  The static agent configuration: which tools and guardrails each agent
  carries, and the handoff graph, built in two steps as the backend does —
  the dispatcher is declared with edges to the three specialists, and the
  back-edges are appended once every agent exists.
 */
module Agents {
  import opened AgentContext
  import opened Guardrails

  /** The dispatcher (the customer service agent) and the three specialists. */
  datatype AgentId = CustomerService | RoamingAgent | PurchaseAgent | CancellationAgent {
    predicate IsSpecialist() { !CustomerService? }
  }

  datatype ToolId =
    | CustomerInformationTool
    | RoamingPlansLookupTool
    | RoamingFaqLookupTool
    | PurchaseRoamingTool
    | RoamingCancellationTool

  /** One agent's configuration; the instructions are rendered separately. */
  datatype AgentConfig = AgentConfig(
    name: string,
    tools: seq<ToolId>,
    guardrails: seq<GuardrailId>,
    handoffs: seq<AgentId>)

  function AgentName(b: Backend, a: AgentId): string {
    match a
    case CustomerService => "Customer Service Agent"
    case RoamingAgent => if b == Current then "Roaming Agent" else "Roaming Recommendation Agent"
    case PurchaseAgent => if b == Current then "Purchase Agent" else "Roaming Purchase Agent"
    case CancellationAgent => "Cancellation Agent"
  }

  /** The agent each tool belongs to, read off the tool's purpose. */
  function Owner(t: ToolId): AgentId {
    match t
    case CustomerInformationTool => CustomerService
    case RoamingPlansLookupTool => RoamingAgent
    case RoamingFaqLookupTool => RoamingAgent
    case PurchaseRoamingTool => PurchaseAgent
    case RoamingCancellationTool => CancellationAgent
  }

  /** The identity tool exists only in the current backend. */
  predicate Available(b: Backend, t: ToolId) {
    t != CustomerInformationTool || b == Current
  }

  /** Both input guardrails, in declaration order. */
  const BothGuardrails: seq<GuardrailId> := [Relevance, Jailbreak]

  /** Each agent as constructed, before the back-edges are added. */
  function Declared(b: Backend, a: AgentId): (c: AgentConfig)
    ensures c.name == AgentName(b, a) && c.guardrails == BothGuardrails
    ensures forall t :: t in c.tools <==> Owner(t) == a && Available(b, t)
    ensures forall i, j :: 0 <= i < j < |c.tools| ==> c.tools[i] != c.tools[j]
    ensures forall y :: y in c.handoffs ==> a == CustomerService && y.IsSpecialist()
    ensures a == CustomerService ==> forall y: AgentId :: y.IsSpecialist() ==> y in c.handoffs
  {
    match a
    case CustomerService =>
      AgentConfig(AgentName(b, a),
                  if b == Current then [CustomerInformationTool] else [],
                  BothGuardrails,
                  [RoamingAgent, PurchaseAgent, CancellationAgent])
    case RoamingAgent =>
      AgentConfig(AgentName(b, a), [RoamingPlansLookupTool, RoamingFaqLookupTool], BothGuardrails, [])
    case PurchaseAgent =>
      AgentConfig(AgentName(b, a), [PurchaseRoamingTool], BothGuardrails, [])
    case CancellationAgent =>
      AgentConfig(AgentName(b, a), [RoamingCancellationTool], BothGuardrails, [])
  }

  /** The wiring step: every specialist gets a handoff back to the dispatcher. */
  function Config(b: Backend, a: AgentId): (c: AgentConfig)
    ensures c.(handoffs := []) == Declared(b, a).(handoffs := [])
    ensures a.IsSpecialist() ==> c.handoffs == Declared(b, a).handoffs + [CustomerService]
    ensures !a.IsSpecialist() ==> c.handoffs == Declared(b, a).handoffs
  {
    var c := Declared(b, a);
    if a.IsSpecialist() then c.(handoffs := c.handoffs + [CustomerService]) else c
  }

  /** There is a handoff edge from x to y. */
  predicate Edge(b: Backend, x: AgentId, y: AgentId) {
    y in Config(b, x).handoffs
  }

  /** The dispatcher delegates to exactly the three specialists, in this order. */
  lemma DispatcherHandoffs(b: Backend)
    ensures Config(b, CustomerService).handoffs == [RoamingAgent, PurchaseAgent, CancellationAgent]
    ensures forall y :: Edge(b, CustomerService, y) <==> y.IsSpecialist()
  {
  }

  /** A specialist's only handoff is back to the dispatcher. */
  lemma SpecialistHandoffs(b: Backend, a: AgentId)
    requires a.IsSpecialist()
    ensures Config(b, a).handoffs == [CustomerService]
  {
  }

  /** There is no edge between two specialists. */
  lemma NoSpecialistToSpecialist(b: Backend, x: AgentId, y: AgentId)
    requires x.IsSpecialist() && y.IsSpecialist()
    ensures !Edge(b, x, y)
  {
    SpecialistHandoffs(b, x);
  }

  /** The graph is symmetric: every edge has its reverse. */
  lemma HandoffGraphSymmetric(b: Backend, x: AgentId, y: AgentId)
    ensures Edge(b, x, y) <==> Edge(b, y, x)
  {
    if x.IsSpecialist() {
      SpecialistHandoffs(b, x);
    }
    if y.IsSpecialist() {
      SpecialistHandoffs(b, y);
    }
  }

  /** Agent y can be reached from x by at most k handoffs. */
  predicate Reachable(b: Backend, x: AgentId, y: AgentId, k: nat)
    decreases k
  {
    x == y || (k > 0 && exists z :: Edge(b, x, z) && Reachable(b, z, y, k - 1))
  }

  /** Every agent reaches every other in at most two handoffs, so no conversation gets stuck. */
  lemma TwoHandoffsReachEverywhere(b: Backend, x: AgentId, y: AgentId)
    ensures Reachable(b, x, y, 2)
  {
    if x != y {
      if x == CustomerService {
        assert Edge(b, x, y) && Reachable(b, y, y, 1);
      } else {
        assert Edge(b, x, CustomerService);
        if y != CustomerService {
          assert Edge(b, CustomerService, y) && Reachable(b, y, y, 0);
          assert Reachable(b, CustomerService, y, 1);
        } else {
          assert Reachable(b, y, y, 1);
        }
      }
    }
  }

  /** Every agent is gated by both guardrails. */
  lemma EveryAgentGuarded(b: Backend, a: AgentId)
    ensures Relevance in Config(b, a).guardrails && Jailbreak in Config(b, a).guardrails
  {
  }

  /**
    Whatever agent is active, the turn trips exactly when the latest message
    is judged irrelevant or unsafe.
   */
  lemma ActiveAgentTrips(b: Backend, a: AgentId, relevance: RelevanceOutput, jailbreak: JailbreakOutput)
    ensures (exists g :: g in Config(b, a).guardrails && Trips(g, relevance, jailbreak))
        <==> (!relevance.isRelevant || !jailbreak.isSafe)
  {
    EveryAgentGuarded(b, a);
    if !relevance.isRelevant {
      assert Trips(Relevance, relevance, jailbreak);
    } else if !jailbreak.isSafe {
      assert Trips(Jailbreak, relevance, jailbreak);
    } else {
      forall g | g in Config(b, a).guardrails
        ensures !Trips(g, relevance, jailbreak)
      {
      }
    }
  }

  /**
    Only the current backend's dispatcher may capture identity; the earlier
    backend's dispatcher has no tools at all.
   */
  lemma IdentityToolOnlyOnDispatcher(b: Backend, a: AgentId)
    ensures CustomerInformationTool in Config(b, a).tools <==> b == Current && a == CustomerService
    ensures b == Earlier ==> Config(b, CustomerService).tools == []
  {
  }

  /** Each tool is carried by at most one agent. */
  lemma ToolHasOneOwner(b: Backend, t: ToolId, x: AgentId, y: AgentId)
    requires t in Config(b, x).tools && t in Config(b, y).tools
    ensures x == y
  {
  }
}

=== FILE: guardrails.dfy ===
/**
  The two input guardrails. The classifier that judges a message is opaque;
  what the backend decides is how its structured verdict becomes a tripwire.
 */
module Guardrails {

  /** The guardrails an agent can be gated by. */
  datatype GuardrailId = Relevance | Jailbreak

  /** The relevance classifier's structured output. */
  datatype RelevanceOutput = RelevanceOutput(reasoning: string, isRelevant: bool)

  /** The jailbreak classifier's structured output. */
  datatype JailbreakOutput = JailbreakOutput(reasoning: string, isSafe: bool)

  /** What a guardrail hands back: the classifier's output and whether the turn trips. */
  datatype GuardrailFunctionOutput<T> = GuardrailFunctionOutput(outputInfo: T, tripwireTriggered: bool)

  /** `relevance_guardrail`: trips exactly on an irrelevant message and passes the verdict on. */
  function RelevanceGuardrail(final: RelevanceOutput): (g: GuardrailFunctionOutput<RelevanceOutput>)
    ensures g.outputInfo == final
    ensures g.tripwireTriggered <==> !final.isRelevant
  {
    GuardrailFunctionOutput(final, !final.isRelevant)
  }

  /** `jailbreak_guardrail`: trips exactly on an unsafe message and passes the verdict on. */
  function JailbreakGuardrail(final: JailbreakOutput): (g: GuardrailFunctionOutput<JailbreakOutput>)
    ensures g.outputInfo == final
    ensures g.tripwireTriggered <==> !final.isSafe
  {
    GuardrailFunctionOutput(final, !final.isSafe)
  }

  /** Whether the named guardrail trips, given both classifiers' verdicts on the latest message. */
  function Trips(g: GuardrailId, relevance: RelevanceOutput, jailbreak: JailbreakOutput): bool {
    match g
    case Relevance => RelevanceGuardrail(relevance).tripwireTriggered
    case Jailbreak => JailbreakGuardrail(jailbreak).tripwireTriggered
  }
}

=== FILE: instructions.dfy ===
/**
  The specialists' instruction renderers. The prose around the context slots
  (and the SDK's recommended prompt prefix) is taken as given text; what is
  modelled is how the context fills the phone and plan slots.
 */
module Instructions {
  import opened Wrappers
  import opened AgentContext

  /** The sentinel shown when the phone number is missing. */
  const Unknown: string := "[unknown]"

  /** The prose of one renderer, split at its context slots. */
  datatype Prose = Prose(opening: string, afterPhone: string, afterPlan: string)

  /** `ctx.phone_number or "[unknown]"`: an absent or empty phone number is falsy. */
  function PhoneSlot(c: Context): (slot: string)
    ensures slot != ""
    ensures slot == Unknown || c.phoneNumber == Some(slot)
  {
    if c.phoneNumber.Some? && c.phoneNumber.value != "" then c.phoneNumber.value else Unknown
  }

  /** The plan as an f-string shows it: an absent plan reads "None". */
  function PlanSlot(c: Context): (slot: string)
    ensures c.roamingPlan.Some? ==> slot == c.roamingPlan.value
    ensures slot == "None" <==> c.roamingPlan == None || c.roamingPlan == Some("None")
  {
    Str(c.roamingPlan)
  }

  /** `roaming_agent_instructions`: prefix, a line break, then prose around the phone slot. */
  function RoamingInstructions(prefix: string, prose: Prose, c: Context): (text: string)
    ensures |text| == |prefix| + 1 + |prose.opening| + |PhoneSlot(c)| + |prose.afterPhone|
    ensures text[..|prefix|] == prefix && text[|prefix|] == '\n'
    ensures text[|text| - |prose.afterPhone|..] == prose.afterPhone
    ensures text[|prefix| + 1..|prefix| + 1 + |prose.opening|] == prose.opening
    ensures var start := |prefix| + 1 + |prose.opening|;
            text[start..start + |PhoneSlot(c)|] == PhoneSlot(c)
  {
    var head := prefix + "\n" + prose.opening;
    var text := head + PhoneSlot(c) + prose.afterPhone;
    assert text[|head|..|head| + |PhoneSlot(c)|] == PhoneSlot(c);
    assert text[|prefix| + 1..|head|] == prose.opening;
    text
  }

  /** `purchase_agent_instructions` and `cancellation_agent_instructions`: phone and plan slots. */
  function PlanAgentInstructions(prefix: string, prose: Prose, c: Context): (text: string)
    ensures |text| == |prefix| + 1 + |prose.opening| + |PhoneSlot(c)| + |prose.afterPhone| + |PlanSlot(c)| + |prose.afterPlan|
    ensures text[..|prefix|] == prefix && text[|prefix|] == '\n'
    ensures text[|text| - |prose.afterPlan|..] == prose.afterPlan
    ensures text[|prefix| + 1..|prefix| + 1 + |prose.opening|] == prose.opening
    ensures var start := |prefix| + 1 + |prose.opening| + |PhoneSlot(c)|;
            text[start..start + |prose.afterPhone|] == prose.afterPhone
    ensures var start := |prefix| + 1 + |prose.opening|;
            text[start..start + |PhoneSlot(c)|] == PhoneSlot(c)
    ensures var start := |prefix| + 1 + |prose.opening| + |PhoneSlot(c)| + |prose.afterPhone|;
            text[start..start + |PlanSlot(c)|] == PlanSlot(c)
  {
    var head := prefix + "\n" + prose.opening;
    var middle := head + PhoneSlot(c) + prose.afterPhone;
    var text := middle + PlanSlot(c) + prose.afterPlan;
    Placed(prefix + "\n", prose.opening, PhoneSlot(c) + prose.afterPhone + PlanSlot(c) + prose.afterPlan);
    Placed(head, PhoneSlot(c), prose.afterPhone + PlanSlot(c) + prose.afterPlan);
    Placed(head + PhoneSlot(c), prose.afterPhone, PlanSlot(c) + prose.afterPlan);
    Placed(middle, PlanSlot(c), prose.afterPlan);
    text
  }

  /** The middle piece of a three-way concatenation sits right after the first. */
  lemma Placed(x: string, y: string, z: string)
    ensures (x + y + z)[|x|..|x| + |y|] == y
  {
    assert (x + y + z)[|x|..|x| + |y|] == (x + y)[|x|..];
  }

  /** The slot shows the sentinel exactly when the phone is absent, empty, or literally the sentinel. */
  lemma PhoneSlotSentinel(c: Context)
    ensures PhoneSlot(c) == Unknown <==>
      c.phoneNumber.None? || c.phoneNumber.value == "" || c.phoneNumber.value == Unknown
    ensures PhoneSlot(c) != ""
  {
  }

  /** A known, non-empty phone number is shown as it is. */
  lemma PhoneSlotShowsPhone(c: Context, phone: string)
    requires c.phoneNumber == Some(phone) && phone != ""
    ensures PhoneSlot(c) == phone
  {
  }

  /**
    An absent plan and the stored text "None" render identically, so the
    purchase and cancellation agents cannot tell them apart.
   */
  lemma NoPlanAndNoneTextRenderAlike(prefix: string, prose: Prose, c: Context)
    ensures PlanAgentInstructions(prefix, prose, c.(roamingPlan := None))
         == PlanAgentInstructions(prefix, prose, c.(roamingPlan := Some("None")))
  {
  }

  /**
    The rendered text is determined by the phone and plan slots alone: the
    customer name never shows, and two contexts with the same slots render
    the same.
   */
  lemma RenderingDependsOnlyOnSlots(prefix: string, prose: Prose, c1: Context, c2: Context)
    requires PhoneSlot(c1) == PhoneSlot(c2) && PlanSlot(c1) == PlanSlot(c2)
    ensures RoamingInstructions(prefix, prose, c1) == RoamingInstructions(prefix, prose, c2)
    ensures PlanAgentInstructions(prefix, prose, c1) == PlanAgentInstructions(prefix, prose, c2)
  {
  }

  /** The phone slot can be read back from the rendered text at a fixed offset. */
  lemma PhoneSlotRecoverable(prefix: string, prose: Prose, c: Context)
    ensures var text := PlanAgentInstructions(prefix, prose, c);
            var start := |prefix| + 1 + |prose.opening|;
            start + |PhoneSlot(c)| <= |text| && text[start..start + |PhoneSlot(c)|] == PhoneSlot(c)
  {
    var text := PlanAgentInstructions(prefix, prose, c);
    var head := prefix + "\n" + prose.opening;
    assert text == head + PhoneSlot(c) + (prose.afterPhone + PlanSlot(c) + prose.afterPlan);
  }
}

=== FILE: roaming_lookup.dfy ===
/**
  The ReadyRoam tier selection of `roaming_plans_lookup_tool`: destinations
  are folded to a lower-case set, optionally checked against the local
  market, intersected with every tier's coverage, and the narrowest tier
  among those with the largest intersection is recommended when that
  intersection covers the whole request.
 */
module RoamingLookup {
  import opened Wrappers
  import Text
  import AgentContext

  /** The four ReadyRoam coverage tiers, narrowest first. */
  datatype Tier = Neighbours | Asia | Worldwide | Others

  /** The fixed rank used to prefer the narrowest tier. */
  function Rank(t: Tier): nat {
    match t
    case Neighbours => 0
    case Asia => 1
    case Worldwide => 2
    case Others => 3
  }

  /** The tier's key in the coverage map, all lower case. */
  function Key(t: Tier): string {
    match t
    case Neighbours => "neighbours"
    case Asia => "asia"
    case Worldwide => "worldwide"
    case Others => "others"
  }

  /** The home market, for which roaming does not apply. */
  const LocalMarket: string := "singapore"

  /**
    The coverage map as loaded from the locations file: the keys in the
    file's order, and the locations each key lists. A tier's locations are
    compared with the folded destinations exactly as stored.
   */
  datatype CoverageMap = CoverageMap(order: seq<Tier>, locations: map<Tier, set<string>>) {
    /** The dictionary invariant: the order lists exactly the keys, each once
        (as many entries as keys, so none repeats). */
    predicate Valid() {
      && |order| == |locations|
      && KeysListed()
    }

    /** Every key appears in the order, and only keys do. */
    predicate KeysListed() {
      forall t :: t in locations <==> t in order
    }
  }

  datatype Recommendation = CoverageUnavailable | Suitable(tier: Tier)

  datatype LookupError = LocalMarketRequested

  /** The request as the tool sees it: the set of folded destination names. */
  function Normalize(destinations: seq<string>): (q: set<string>)
    ensures forall d :: d in destinations ==> Text.Lower(d) in q
    ensures forall x :: x in q ==> exists d :: d in destinations && Text.Lower(d) == x
  {
    set d | d in destinations :: Text.Lower(d)
  }

  /** The tier's locations fully contain the request. */
  predicate Covers(locations: map<Tier, set<string>>, t: Tier, q: set<string>) {
    t in locations && q <= locations[t]
  }

  /** How many requested destinations the tier covers. */
  function Overlap(q: set<string>, locations: map<Tier, set<string>>, t: Tier): nat {
    if t in locations then |q * locations[t]| else 0
  }

  /** The largest overlap seen so far, and the keys that reach it in scan order. */
  datatype Scan = Scan(maxIntersect: int, maxSet: seq<Tier>)

  /**
    The scan over the map's keys: a key with a larger overlap restarts the
    tie list, a key with an equal overlap joins it. Before any key the
    maximum is -1.
   */
  function ScanTiers(q: set<string>, locations: map<Tier, set<string>>, order: seq<Tier>): (s: Scan)
    ensures |order| == 0 <==> s.maxIntersect == -1
    ensures s.maxIntersect >= -1
    ensures |order| > 0 ==> |s.maxSet| > 0
    decreases |order|
  {
    if |order| == 0 then Scan(-1, [])
    else
      var k := order[|order| - 1];
      var s := ScanTiers(q, locations, order[..|order| - 1]);
      var size := Overlap(q, locations, k);
      if size > s.maxIntersect then Scan(size, [k])
      else if size == s.maxIntersect then Scan(s.maxIntersect, s.maxSet + [k])
      else s
  }

  /** No key overlaps the request more than the scan's maximum. */
  lemma {:induction false} ScanIsUpperBound(q: set<string>, locations: map<Tier, set<string>>, order: seq<Tier>, i: int)
    requires 0 <= i < |order|
    ensures Overlap(q, locations, order[i]) <= ScanTiers(q, locations, order).maxIntersect
    decreases |order|
  {
    var n := |order| - 1;
    if i < n {
      ScanIsUpperBound(q, locations, order[..n], i);
      assert order[..n][i] == order[i];
    }
  }

  /** Some key reaches the scan's maximum. */
  lemma {:induction false} ScanMaximumReached(q: set<string>, locations: map<Tier, set<string>>, order: seq<Tier>)
    returns (i: int)
    requires |order| > 0
    ensures 0 <= i < |order|
    ensures Overlap(q, locations, order[i]) == ScanTiers(q, locations, order).maxIntersect
    decreases |order|
  {
    var n := |order| - 1;
    var s := ScanTiers(q, locations, order[..n]);
    if Overlap(q, locations, order[n]) >= s.maxIntersect {
      i := n;
    } else {
      i := ScanMaximumReached(q, locations, order[..n]);
      assert order[..n][i] == order[i];
    }
  }

  /** A key is in the tie list exactly when it is listed and reaches the maximum. */
  lemma {:induction false} ScanTies(q: set<string>, locations: map<Tier, set<string>>, order: seq<Tier>, t: Tier)
    ensures t in ScanTiers(q, locations, order).maxSet
        <==> t in order && Overlap(q, locations, t) == ScanTiers(q, locations, order).maxIntersect
    decreases |order|
  {
    if |order| > 0 {
      var n := |order| - 1;
      var prefix := order[..n];
      assert order == prefix + [order[n]];
      ScanTies(q, locations, prefix, t);
      if t in prefix {
        var j :| 0 <= j < n && prefix[j] == t;
        ScanIsUpperBound(q, locations, prefix, j);
      }
    }
  }

  /** `min(td, key=td.get)`: the first listed tier of least rank. */
  function MinByRank(ts: seq<Tier>): (t: Tier)
    requires |ts| > 0
    ensures t in ts
    ensures forall u :: u in ts ==> Rank(t) <= Rank(u)
  {
    if |ts| == 1 then ts[0]
    else
      var rest := MinByRank(ts[1..]);
      if Rank(ts[0]) <= Rank(rest) then ts[0] else rest
  }

  /** A request never overlaps a tier in more places than it has destinations,
      and reaches that bound exactly when the tier covers it. */
  lemma OverlapBound(q: set<string>, locations: map<Tier, set<string>>, t: Tier)
    requires t in locations
    ensures Overlap(q, locations, t) <= |q|
    ensures Overlap(q, locations, t) == |q| <==> Covers(locations, t, q)
  {
    var both := q * locations[t];
    var missing := q - locations[t];
    assert q == both + missing;
    assert both !! missing;
    assert |q| == |both| + |missing|;
    if !(q <= locations[t]) {
      var x :| x in q && x !in locations[t];
      assert x in missing;
    }
  }

  /**
    `roaming_plans_lookup_tool`. With `localCheck` (the current backend) a
    request naming the home market fails; otherwise the outcome is either
    "coverage unavailable" or the narrowest tier covering every destination.
   */
  function Lookup(localCheck: bool, destinations: seq<string>, coverage: CoverageMap): (r: Result<Recommendation, LookupError>)
    requires coverage.Valid()
    ensures r.Failure? <==> localCheck && LocalMarket in Normalize(destinations)
    ensures r.Success? && r.value.Suitable? ==>
      && Covers(coverage.locations, r.value.tier, Normalize(destinations))
      && forall u :: Covers(coverage.locations, u, Normalize(destinations)) ==> Rank(r.value.tier) <= Rank(u)
    ensures r.Success? ==>
      (r.value == CoverageUnavailable <==> forall u :: !Covers(coverage.locations, u, Normalize(destinations)))
  {
    var q := Normalize(destinations);
    if localCheck && LocalMarket in q then Failure(LocalMarketRequested)
    else
      var s := ScanTiers(q, coverage.locations, coverage.order);
      if s.maxIntersect < |q| then
        NoTierCoversAny(q, coverage);
        Success(CoverageUnavailable)
      else
        var t := MinByRank(s.maxSet);
        TiedTiersAreCovering(q, coverage);
        Success(Suitable(t))
  }

  /** When the largest overlap falls short of the request, the tier does not cover it. */
  lemma NoTierCovers(q: set<string>, coverage: CoverageMap, u: Tier)
    requires coverage.KeysListed()
    requires ScanTiers(q, coverage.locations, coverage.order).maxIntersect < |q|
    ensures !Covers(coverage.locations, u, q)
  {
    if u in coverage.locations {
      OverlapBound(q, coverage.locations, u);
      var i :| 0 <= i < |coverage.order| && coverage.order[i] == u;
      ScanIsUpperBound(q, coverage.locations, coverage.order, i);
    }
  }

  lemma NoTierCoversAny(q: set<string>, coverage: CoverageMap)
    requires coverage.KeysListed()
    requires ScanTiers(q, coverage.locations, coverage.order).maxIntersect < |q|
    ensures forall u :: !Covers(coverage.locations, u, q)
  {
    forall u
      ensures !Covers(coverage.locations, u, q)
    {
      NoTierCovers(q, coverage, u);
    }
  }

  /** When the largest overlap reaches the request, a tier ties exactly when it covers the request. */
  lemma TiedTierCovers(q: set<string>, coverage: CoverageMap, u: Tier)
    requires coverage.KeysListed()
    requires ScanTiers(q, coverage.locations, coverage.order).maxIntersect >= |q|
    ensures ScanTiers(q, coverage.locations, coverage.order).maxIntersect == |q|
    ensures u in ScanTiers(q, coverage.locations, coverage.order).maxSet <==> Covers(coverage.locations, u, q)
  {
    MaxIntersectBounded(q, coverage);
    ScanTies(q, coverage.locations, coverage.order, u);
    if u in coverage.locations {
      OverlapBound(q, coverage.locations, u);
    }
  }

  lemma TiedTiersAreCovering(q: set<string>, coverage: CoverageMap)
    requires coverage.KeysListed()
    requires ScanTiers(q, coverage.locations, coverage.order).maxIntersect >= |q|
    ensures forall u :: u in ScanTiers(q, coverage.locations, coverage.order).maxSet <==> Covers(coverage.locations, u, q)
  {
    forall u
      ensures u in ScanTiers(q, coverage.locations, coverage.order).maxSet <==> Covers(coverage.locations, u, q)
    {
      TiedTierCovers(q, coverage, u);
    }
  }

  /** The largest overlap the scan finds never exceeds the number of folded destinations. */
  lemma MaxIntersectBounded(q: set<string>, coverage: CoverageMap)
    requires coverage.KeysListed()
    ensures ScanTiers(q, coverage.locations, coverage.order).maxIntersect <= |q|
  {
    if |coverage.order| > 0 {
      var i := ScanMaximumReached(q, coverage.locations, coverage.order);
      OverlapBound(q, coverage.locations, coverage.order[i]);
    }
  }

  /**
    Reference definition of the recommendation: the first tier, in rank
    order, whose locations contain the whole request.
   */
  function NarrowestCovering(q: set<string>, locations: map<Tier, set<string>>): (r: Option<Tier>)
    ensures r.None? <==> forall u :: !Covers(locations, u, q)
    ensures r.Some? ==> Covers(locations, r.value, q)
    ensures r.Some? ==> forall u :: Covers(locations, u, q) ==> Rank(r.value) <= Rank(u)
  {
    if Covers(locations, Neighbours, q) then Some(Neighbours)
    else if Covers(locations, Asia, q) then Some(Asia)
    else if Covers(locations, Worldwide, q) then Some(Worldwide)
    else if Covers(locations, Others, q) then Some(Others)
    else
      NoneCovers(q, locations);
      None
  }

  lemma NoneCovers(q: set<string>, locations: map<Tier, set<string>>)
    requires !Covers(locations, Neighbours, q) && !Covers(locations, Asia, q)
    requires !Covers(locations, Worldwide, q) && !Covers(locations, Others, q)
    ensures forall u :: !Covers(locations, u, q)
  {
    forall u
      ensures !Covers(locations, u, q)
    {
      match u
      case Neighbours =>
      case Asia =>
      case Worldwide =>
      case Others =>
    }
  }

  function AsRecommendation(o: Option<Tier>): Recommendation {
    match o
    case None => CoverageUnavailable
    case Some(t) => Suitable(t)
  }

  /** Ranks are distinct, so a least-ranked tier is unique. */
  lemma RankInjective(a: Tier, b: Tier)
    requires Rank(a) == Rank(b)
    ensures a == b
  {
  }

  /** Past the local-market check, the scan recommends exactly the reference tier. */
  lemma LookupIsNarrowestCovering(localCheck: bool, destinations: seq<string>, coverage: CoverageMap)
    requires coverage.Valid()
    requires !(localCheck && LocalMarket in Normalize(destinations))
    ensures Lookup(localCheck, destinations, coverage)
         == Success(AsRecommendation(NarrowestCovering(Normalize(destinations), coverage.locations)))
  {
    var q := Normalize(destinations);
    var r := Lookup(localCheck, destinations, coverage);
    var n := NarrowestCovering(q, coverage.locations);
    if r.value.Suitable? {
      assert n.Some?;
      RankInjective(r.value.tier, n.value);
    }
  }

  /** The outcome depends on the coverage map's contents, not on the order of its keys. */
  lemma LookupIgnoresKeyOrder(localCheck: bool, destinations: seq<string>, c1: CoverageMap, c2: CoverageMap)
    requires c1.Valid() && c2.Valid()
    requires c1.locations == c2.locations
    ensures Lookup(localCheck, destinations, c1) == Lookup(localCheck, destinations, c2)
  {
    if !(localCheck && LocalMarket in Normalize(destinations)) {
      LookupIsNarrowestCovering(localCheck, destinations, c1);
      LookupIsNarrowestCovering(localCheck, destinations, c2);
    }
  }

  /** Destination lists naming the same places up to case and repetition get the same answer. */
  lemma LookupIgnoresCaseAndDuplicates(localCheck: bool, d1: seq<string>, d2: seq<string>, coverage: CoverageMap)
    requires coverage.Valid()
    requires forall x :: x in d1 ==> Text.Lower(x) in Normalize(d2)
    requires forall y :: y in d2 ==> Text.Lower(y) in Normalize(d1)
    ensures Lookup(localCheck, d1, coverage) == Lookup(localCheck, d2, coverage)
  {
    SameFoldedSet(d1, d2);
    SameFoldedSet(d2, d1);
    assert Normalize(d1) == Normalize(d2);
  }

  lemma SameFoldedSet(d1: seq<string>, d2: seq<string>)
    requires forall x :: x in d1 ==> Text.Lower(x) in Normalize(d2)
    ensures Normalize(d1) <= Normalize(d2)
  {
    forall z | z in Normalize(d1)
      ensures z in Normalize(d2)
    {
      var x :| x in d1 && Text.Lower(x) == z;
    }
  }

  /** With the local check on, any spelling of the home market makes the lookup fail. */
  lemma LocalMarketAlwaysRejected(destinations: seq<string>, i: int, coverage: CoverageMap)
    requires coverage.Valid()
    requires 0 <= i < |destinations| && Text.Lower(destinations[i]) == LocalMarket
    ensures Lookup(AgentContext.Backend.Current.LocalCheck(), destinations, coverage) == Failure(LocalMarketRequested)
  {
    assert Text.Lower(destinations[i]) in Normalize(destinations);
  }

  /** Without the local check the home market is an ordinary location and the lookup never fails. */
  lemma NoLocalCheckNeverFails(destinations: seq<string>, coverage: CoverageMap)
    requires coverage.Valid()
    ensures Lookup(AgentContext.Backend.Earlier.LocalCheck(), destinations, coverage).Success?
    ensures Lookup(AgentContext.Backend.Earlier.LocalCheck(), destinations, coverage)
         == Success(AsRecommendation(NarrowestCovering(Normalize(destinations), coverage.locations)))
  {
    LookupIsNarrowestCovering(false, destinations, coverage);
  }

  /** An empty request is covered by every tier, so the lowest-ranked tier present is recommended. */
  lemma EmptyRequestGetsLowestRank(localCheck: bool, coverage: CoverageMap)
    requires coverage.Valid()
    requires |coverage.order| > 0
    ensures Lookup(localCheck, [], coverage).Success?
    ensures Lookup(localCheck, [], coverage).value.Suitable?
    ensures forall u :: u in coverage.locations ==> Rank(Lookup(localCheck, [], coverage).value.tier) <= Rank(u)
  {
    assert Normalize([]) == {};
    var t := coverage.order[0];
    assert Covers(coverage.locations, t, {});
  }

  /** The tool's reply text. */
  function Message(r: Recommendation): (m: string)
    ensures r.CoverageUnavailable? ==> |m| == 84
    ensures r.Suitable? ==>
      && |m| == 43 + |Key(r.tier)|
      && m[..10] == "ReadyRoam "
      && m[10..10 + |Key(r.tier)|] == Text.Capitalize(Key(r.tier))
  {
    match r
    case CoverageUnavailable =>
      "Unforunately, we are unable to provide ReadyRoam coverage for all your destinations."
    case Suitable(t) =>
      "ReadyRoam " + Text.Capitalize(Key(t)) + " would be suitable for your trip."
  }

  /** The four keys have four different lengths. */
  lemma KeyLengthInjective(a: Tier, b: Tier)
    requires |Key(a)| == |Key(b)|
    ensures a == b
  {
  }

  /** Distinct outcomes produce distinct replies, so the "unavailable" reply
      is never a tier's reply. */
  lemma MessageInjective(r1: Recommendation, r2: Recommendation)
    requires Message(r1) == Message(r2)
    ensures r1 == r2
  {
    match r1
    case CoverageUnavailable =>
    case Suitable(t1) =>
      if r2.Suitable? {
        KeyLengthInjective(t1, r2.tier);
      }
  }

  /** `plan.lower() in [...]`: the check the purchase tool applies to a plan name. */
  function IsTierName(plan: string): (b: bool)
    ensures b <==> exists t :: Text.Lower(plan) == Key(t)
  {
    KeyListed(Text.Lower(plan));
    Text.Lower(plan) in ["neighbours", "asia", "worldwide", "others"]
  }

  /** The purchase tool's list of plan names is exactly the tiers' keys. */
  lemma KeyListed(k: string)
    ensures k in ["neighbours", "asia", "worldwide", "others"] <==> exists t :: k == Key(t)
  {
    if k == "neighbours" { assert k == Key(Neighbours); }
    else if k == "asia" { assert k == Key(Asia); }
    else if k == "worldwide" { assert k == Key(Worldwide); }
    else if k == "others" { assert k == Key(Others); }
  }

  /** Every tier key is already folded. */
  lemma KeyFolded(t: Tier)
    ensures Text.Lower(Key(t)) == Key(t)
  {
    match t
    case Neighbours => Text.LowerFixesLowercase("neighbours");
    case Asia => Text.LowerFixesLowercase("asia");
    case Worldwide => Text.LowerFixesLowercase("worldwide");
    case Others => Text.LowerFixesLowercase("others");
  }

  /** The tier named in a recommendation is a plan name the purchase tool accepts. */
  lemma RecommendedTierIsPurchasable(t: Tier)
    ensures IsTierName(Text.Capitalize(Key(t)))
  {
    KeyFolded(t);
    Text.LowerCapitalize(Key(t));
    assert Text.Lower(Text.Capitalize(Key(t))) == Key(t);
  }
}

=== FILE: text.dfy ===
/**
  Character and string helpers the backend relies on: case folding
  (`str.lower`, `str.capitalize`) and the decimal rendering of an integer
  (`str(int)`). Case folding is ASCII-only; see README.
 */
module Text {

  /** Lower-cases an ASCII letter; every other character is returned as is. */
  function LowerChar(c: char): char {
    if 'A' <= c <= 'Z' then (c as int - 'A' as int + 'a' as int) as char else c
  }

  /** Upper-cases an ASCII letter; every other character is returned as is. */
  function UpperChar(c: char): char {
    if 'a' <= c <= 'z' then (c as int - 'a' as int + 'A' as int) as char else c
  }

  /** `s.lower()`: folds every character of `s`. */
  function Lower(s: string): (r: string)
    ensures |r| == |s|
    ensures forall i :: 0 <= i < |s| ==> r[i] == LowerChar(s[i])
  {
    if s == [] then [] else [LowerChar(s[0])] + Lower(s[1..])
  }

  /** `s.capitalize()`: the first character upper-cased, the rest lower-cased. */
  function Capitalize(s: string): (r: string)
    ensures |r| == |s|
    ensures |s| > 0 ==> r[0] == UpperChar(s[0])
    ensures forall i :: 0 < i < |s| ==> r[i] == LowerChar(s[i])
  {
    if s == [] then [] else [UpperChar(s[0])] + Lower(s[1..])
  }

  /** Folding twice is folding once, so a folded string is its own key. */
  lemma LowerIdempotent(s: string)
    ensures Lower(Lower(s)) == Lower(s)
  {
    var once := Lower(s);
    var twice := Lower(once);
    assert forall i :: 0 <= i < |s| ==> twice[i] == once[i];
  }

  /** A word of lower-case ASCII letters is already folded. */
  lemma LowerFixesLowercase(s: string)
    requires forall i :: 0 <= i < |s| ==> 'a' <= s[i] <= 'z'
    ensures Lower(s) == s
  {
    assert forall i :: 0 <= i < |s| ==> Lower(s)[i] == s[i];
  }

  /** Capitalizing a word and folding it back gives the folded word. */
  lemma LowerCapitalize(s: string)
    ensures Lower(Capitalize(s)) == Lower(s)
  {
    if s != [] {
      var c := Capitalize(s);
      assert c == [UpperChar(s[0])] + Lower(s[1..]);
      assert c[1..] == Lower(s[1..]);
      LowerIdempotent(s[1..]);
      assert Lower(c)[0] == LowerChar(UpperChar(s[0])) == LowerChar(s[0]);
      forall i | 1 <= i < |s|
        ensures Lower(c)[i] == Lower(s)[i]
      {
        assert c[i] == Lower(s[1..])[i - 1] == LowerChar(s[i]);
      }
    }
  }

  predicate IsDigit(c: char) {
    '0' <= c <= '9'
  }

  predicate AllDigits(s: string) {
    forall i :: 0 <= i < |s| ==> IsDigit(s[i])
  }

  function DigitChar(d: nat): (c: char)
    requires d < 10
    ensures IsDigit(c)
  {
    ('0' as int + d) as char
  }

  function DigitValue(c: char): nat
    requires IsDigit(c)
  {
    c as int - '0' as int
  }

  function Pow10(k: nat): (p: nat)
    ensures p >= 1
  {
    if k == 0 then 1 else 10 * Pow10(k - 1)
  }

  /** `str(n)` for a non-negative integer: its decimal digits, most significant first. */
  function Decimal(n: nat): (r: string)
    ensures |r| >= 1 && AllDigits(r)
    ensures n > 0 ==> r[0] != '0'
    decreases n
  {
    if n < 10 then [DigitChar(n)] else Decimal(n / 10) + [DigitChar(n % 10)]
  }

  /** `int(s)` for a string of decimal digits (the empty string reads as 0). */
  function DecimalValue(s: string): nat
    requires AllDigits(s)
  {
    if s == [] then 0 else 10 * DecimalValue(s[..|s| - 1]) + DigitValue(s[|s| - 1])
  }

  /** Reading back the rendered digits gives the number: `int(str(n)) == n`. */
  lemma {:induction false} DecimalRoundTrip(n: nat)
    ensures DecimalValue(Decimal(n)) == n
    decreases n
  {
    var r := Decimal(n);
    if n < 10 {
      assert r[..0] == [];
    } else {
      DecimalRoundTrip(n / 10);
      assert r[..|r| - 1] == Decimal(n / 10);
    }
  }

  /** A number with k+1 digits renders as exactly k+1 characters. */
  lemma {:induction false} DecimalLength(n: nat, k: nat)
    requires Pow10(k) <= n < Pow10(k + 1)
    ensures |Decimal(n)| == k + 1
    decreases k
  {
    if k > 0 {
      assert Pow10(k) == 10 * Pow10(k - 1);
      assert Pow10(k + 1) == 10 * Pow10(k);
      assert n >= 10;
      DecimalLength(n / 10, k - 1);
    }
  }
}

=== FILE: tools.dfy ===
/**
  The context- and store-changing tools: identity capture
  (`get_customer_information_tool`), purchase (`purchase_roaming_tool`) and
  cancellation (`roaming_cancellation_tool`). Each is a pure transition of a
  Session; a failed precondition yields the session it was given.
 */
module Tools {
  import opened Wrappers
  import opened AgentContext
  import RoamingLookup

  /** The precondition a tool call violated. */
  datatype ToolError =
    | InvalidPlan            // the plan is not one of the four tiers
    | NoActivePlan           // there is no plan to cancel
    | UndefinedName(name: string)  // the tool body names a variable that does not exist

  /** The session after a tool call and the text the tool returned (or its failure). */
  datatype Step = Step(session: Session, reply: Result<string, ToolError>)

  /** The row was written for this customer. */
  predicate Matches(row: Row, name: string, phone: string) {
    row.customerName == name && row.phoneNumber == phone
  }

  /** Some row was written for this customer. */
  predicate HasRecord(store: seq<Row>, name: string, phone: string) {
    exists i :: 0 <= i < |store| && Matches(store[i], name, phone)
  }

  /** Row i is the last one written for this customer. */
  predicate IsLatestMatch(store: seq<Row>, name: string, phone: string, i: int) {
    && 0 <= i < |store|
    && Matches(store[i], name, phone)
    && forall j :: i < j < |store| ==> !Matches(store[j], name, phone)
  }

  /**
    The `SELECT roaming_plan ... WHERE customer_name == name AND
    phone_number == phone` query: the customer's plans in insertion order.
   */
  function PlansFor(store: seq<Row>, name: string, phone: string): (plans: seq<string>)
    ensures |plans| == 0 <==> !HasRecord(store, name, phone)
    ensures |plans| > 0 ==>
      exists i :: IsLatestMatch(store, name, phone, i) && plans[|plans| - 1] == store[i].roamingPlan
    decreases |store|
  {
    if |store| == 0 then []
    else
      var n := |store| - 1;
      var prefix := PlansFor(store[..n], name, phone);
      if Matches(store[n], name, phone) then
        assert IsLatestMatch(store, name, phone, n);
        prefix + [store[n].roamingPlan]
      else
        PrefixRecords(store, name, phone);
        prefix
  }

  /** When the last row is someone else's, the records and the latest match come from the prefix. */
  lemma PrefixRecords(store: seq<Row>, name: string, phone: string)
    requires |store| > 0 && !Matches(store[|store| - 1], name, phone)
    ensures HasRecord(store, name, phone) <==> HasRecord(store[..|store| - 1], name, phone)
    ensures forall i :: IsLatestMatch(store[..|store| - 1], name, phone, i) ==> IsLatestMatch(store, name, phone, i)
  {
    var n := |store| - 1;
    assert forall j :: 0 <= j < n ==> store[..n][j] == store[j];
  }

  /** The plan of the customer's latest row, when there is one. */
  function LatestPlan(store: seq<Row>, name: string, phone: string): (p: Option<string>)
    ensures p.None? <==> !HasRecord(store, name, phone)
    ensures p.Some? ==> exists i :: IsLatestMatch(store, name, phone, i) && p.value == store[i].roamingPlan
  {
    var plans := PlansFor(store, name, phone);
    if |plans| > 0 then Some(plans[|plans| - 1]) else None
  }

  /** Appending a row for the customer makes it their latest. */
  lemma LatestPlanAfterAppend(store: seq<Row>, row: Row)
    ensures LatestPlan(store + [row], row.customerName, row.phoneNumber) == Some(row.roamingPlan)
  {
    var s := store + [row];
    assert s[..|s| - 1] == store;
  }

  /** Appending a row for someone else leaves the customer's latest plan alone. */
  lemma LatestPlanAfterOtherAppend(store: seq<Row>, row: Row, name: string, phone: string)
    requires !Matches(row, name, phone)
    ensures LatestPlan(store + [row], name, phone) == LatestPlan(store, name, phone)
  {
    var s := store + [row];
    assert s[..|s| - 1] == store;
  }

  /**
    `get_customer_information_tool` (current backend). The name and phone are
    always overwritten. If the store has rows for that identity, the context
    adopts the latest row's plan text and nothing is written; otherwise one
    row carrying the current plan's text is appended.
   */
  function CaptureIdentity(s: Session, name: string, phone: string): (r: Session)
    ensures r.ctx.customerName == Some(name) && r.ctx.phoneNumber == Some(phone)
    ensures HasRecord(s.store, name, phone) ==>
      && r.store == s.store
      && exists i :: IsLatestMatch(s.store, name, phone, i) && r.ctx.roamingPlan == Some(s.store[i].roamingPlan)
    ensures !HasRecord(s.store, name, phone) ==>
      && r.store == s.store + [Row(name, phone, Str(s.ctx.roamingPlan))]
      && r.ctx.roamingPlan == s.ctx.roamingPlan
  {
    var ctx := s.ctx.(customerName := Some(name), phoneNumber := Some(phone));
    match LatestPlan(s.store, name, phone)
    case Some(plan) => Session(ctx.(roamingPlan := Some(plan)), s.store)
    case None => Session(ctx, s.store + [Row(name, phone, Str(ctx.roamingPlan))])
  }

  /**
    Capturing the same identity twice writes at most one row in all; the
    second call writes nothing, and when the first call wrote the row it
    turns an absent plan into the text "None".
   */
  lemma {:induction false} CaptureTwice(s: Session, name: string, phone: string)
    ensures var s1 := CaptureIdentity(s, name, phone);
            var s2 := CaptureIdentity(s1, name, phone);
            && s2.store == s1.store
            && |s2.store| <= |s.store| + 1
            && (HasRecord(s.store, name, phone) ==> s2 == s1)
            && (!HasRecord(s.store, name, phone) ==> s2.ctx.roamingPlan == Some(Str(s.ctx.roamingPlan)))
  {
    var s1 := CaptureIdentity(s, name, phone);
    if !HasRecord(s.store, name, phone) {
      LatestPlanAfterAppend(s.store, Row(name, phone, Str(s.ctx.roamingPlan)));
    } else {
      var i :| IsLatestMatch(s.store, name, phone, i) && s1.ctx.roamingPlan == Some(s.store[i].roamingPlan);
      LatestIsUnique(s.store, name, phone, i);
    }
  }

  /** The latest row for a customer is the one LatestPlan reports. */
  lemma LatestIsUnique(store: seq<Row>, name: string, phone: string, i: int)
    requires IsLatestMatch(store, name, phone, i)
    ensures LatestPlan(store, name, phone) == Some(store[i].roamingPlan)
  {
    var p := LatestPlan(store, name, phone);
    var k :| IsLatestMatch(store, name, phone, k) && p.value == store[k].roamingPlan;
  }

  /** The purchase tool's receipt. */
  function PurchaseReceipt(plan: string, phone: Option<string>): (r: string)
    ensures |r| == 29 + |plan| + |Str(phone)|
    ensures r[24..24 + |plan|] == plan
    ensures r[|r| - |Str(phone)|..] == Str(phone)
  {
    "Updated roaming plan to " + plan + " for " + Str(phone)
  }

  /**
    `purchase_roaming_tool`. A plan whose folded form is not a tier key is
    refused with nothing changed. Otherwise the context plan becomes the
    argument exactly as given and, when `persist`, one row is appended.
   */
  function Purchase(persist: bool, s: Session, newPlan: string): (r: Step)
    ensures r.reply.Failure? <==> !RoamingLookup.IsTierName(newPlan)
    ensures r.reply.Failure? ==> r.session == s && r.reply.error == InvalidPlan
    ensures r.reply.Success? ==>
      && r.session.ctx == s.ctx.(roamingPlan := Some(newPlan))
      && r.reply.value == PurchaseReceipt(newPlan, s.ctx.phoneNumber)
    ensures r.reply.Success? && persist ==>
      r.session.store == s.store + [Row(Str(s.ctx.customerName), Str(s.ctx.phoneNumber), newPlan)]
    ensures !persist ==> r.session.store == s.store
  {
    if !RoamingLookup.IsTierName(newPlan) then Step(s, Failure(InvalidPlan))
    else
      var ctx := s.ctx.(roamingPlan := Some(newPlan));
      var store := if persist then s.store + [Row(Str(ctx.customerName), Str(ctx.phoneNumber), newPlan)] else s.store;
      Step(Session(ctx, store), Success(PurchaseReceipt(newPlan, ctx.phoneNumber)))
  }

  /** Without a store (the earlier backend) a purchase changes the context plan and nothing else. */
  lemma EarlierPurchaseTouchesOnlyPlan(s: Session, plan: string)
    requires RoamingLookup.IsTierName(plan)
    ensures Purchase(Earlier.Persist(), s, plan).session == Session(s.ctx.(roamingPlan := Some(plan)), s.store)
  {
  }

  /** The cancellation tool's receipt. */
  function CancelReceipt(phone: Option<string>): (r: string)
    ensures |r| == 25 + |Str(phone)|
    ensures r[25..] == Str(phone)
  {
    "Removed roaming plan for " + Str(phone)
  }

  /**
    `roaming_cancellation_tool` as main.py writes it. With no active plan it
    fails with nothing changed; otherwise the context plan is cleared and,
    when `persist`, one row whose plan is the text "None" is appended. With
    `persist` off it is also the evident intent of main2.py's version.
   */
  function Cancel(persist: bool, s: Session): (r: Step)
    ensures r.reply.Failure? <==> s.ctx.roamingPlan.None?
    ensures r.reply.Failure? ==> r.session == s && r.reply.error == NoActivePlan
    ensures r.reply.Success? ==>
      && r.session.ctx == s.ctx.(roamingPlan := None)
      && r.reply.value == CancelReceipt(s.ctx.phoneNumber)
    ensures r.reply.Success? && persist ==>
      r.session.store == s.store + [Row(Str(s.ctx.customerName), Str(s.ctx.phoneNumber), "None")]
    ensures !persist ==> r.session.store == s.store
  {
    if s.ctx.roamingPlan.None? then Step(s, Failure(NoActivePlan))
    else
      var ctx := s.ctx.(roamingPlan := None);
      var store := if persist then s.store + [Row(Str(ctx.customerName), Str(ctx.phoneNumber), Str(None))] else s.store;
      Step(Session(ctx, store), Success(CancelReceipt(ctx.phoneNumber)))
  }

  /**
    `roaming_cancellation_tool` as main2.py writes it: its precondition reads
    `new_roaming_plan`, which is not defined in that scope, so the call
    raises before touching anything.
   */
  function CancelEarlierAsWritten(s: Session): (r: Step)
    ensures r.session == s
    ensures r.reply == Failure(UndefinedName("new_roaming_plan"))
  {
    Step(s, Failure(UndefinedName("new_roaming_plan")))
  }

  /** The earlier backend's cancellation never clears a plan, even when one is active. */
  lemma EarlierCancelNeverClears(s: Session)
    requires s.ctx.roamingPlan.Some?
    ensures CancelEarlierAsWritten(s).reply.Failure?
    ensures CancelEarlierAsWritten(s).session.ctx.roamingPlan == s.ctx.roamingPlan
    ensures Cancel(Earlier.Persist(), s).reply.Success?
    ensures Cancel(Earlier.Persist(), s).session.ctx.roamingPlan.None?
  {
  }

  /** A purchase followed by a cancellation returns the context to having no plan
      and leaves the customer's latest row reading "None". */
  lemma {:induction false} PurchaseThenCancel(persist: bool, s: Session, plan: string)
    requires RoamingLookup.IsTierName(plan)
    ensures var p := Purchase(persist, s, plan).session;
            var c := Cancel(persist, p);
            && c.reply.Success?
            && c.session.ctx == s.ctx.(roamingPlan := None)
            && (persist ==>
                  c.session.store == s.store
                    + [Row(Str(s.ctx.customerName), Str(s.ctx.phoneNumber), plan)]
                    + [Row(Str(s.ctx.customerName), Str(s.ctx.phoneNumber), "None")])
            && (persist ==> LatestPlan(c.session.store, Str(s.ctx.customerName), Str(s.ctx.phoneNumber)) == Some("None"))
  {
    var p := Purchase(persist, s, plan).session;
    var c := Cancel(persist, p);
    if persist {
      LatestPlanAfterAppend(p.store, Row(Str(s.ctx.customerName), Str(s.ctx.phoneNumber), "None"));
    }
  }

  /** Cancelling twice: the second call fails and changes nothing. */
  lemma CancelTwiceFails(persist: bool, s: Session)
    ensures var c := Cancel(persist, s).session;
            Cancel(persist, c).reply == Failure(NoActivePlan) && Cancel(persist, c).session == c
  {
  }

  /**
    A persisted purchase is what the next identity capture for the same
    customer adopts, and that capture writes nothing.
   */
  lemma {:induction false} PurchaseAdoptedOnRecapture(s: Session, name: string, phone: string, plan: string)
    requires s.ctx.customerName == Some(name) && s.ctx.phoneNumber == Some(phone)
    requires RoamingLookup.IsTierName(plan)
    ensures var p := Purchase(Current.Persist(), s, plan).session;
            var c := CaptureIdentity(p, name, phone);
            c.ctx.roamingPlan == Some(plan) && c.store == p.store
  {
    var p := Purchase(Current.Persist(), s, plan).session;
    LatestPlanAfterAppend(s.store, Row(name, phone, plan));
    assert p.store == s.store + [Row(name, phone, plan)];
    assert HasRecord(p.store, name, phone) by {
      assert Matches(p.store[|p.store| - 1], name, phone);
    }
    var i :| IsLatestMatch(p.store, name, phone, i) && CaptureIdentity(p, name, phone).ctx.roamingPlan == Some(p.store[i].roamingPlan);
    LatestIsUnique(p.store, name, phone, i);
  }

  /**
    A returning customer whose latest row names a plan: identity capture
    adopts it, and cancellation then clears it and records "None" for them.
   */
  lemma {:induction false} ReturningCustomerCancels(s: Session, name: string, phone: string, plan: string)
    requires LatestPlan(s.store, name, phone) == Some(plan)
    ensures var c := CaptureIdentity(s, name, phone);
            var x := Cancel(Current.Persist(), c);
            && c.ctx.roamingPlan == Some(plan)
            && x.reply.Success?
            && x.session.ctx == Context(Some(name), Some(phone), None)
            && x.session.store == s.store + [Row(name, phone, "None")]
  {
  }

  /**
    After a persisted cancellation, capturing the same identity again adopts
    the stored text "None" as if it were a plan, so a second cancellation
    succeeds and writes yet another row although no plan exists.
   */
  lemma {:induction false} RecapturedCancellationLooksActive(s: Session, name: string, phone: string)
    requires s.ctx.customerName == Some(name) && s.ctx.phoneNumber == Some(phone)
    requires s.ctx.roamingPlan.Some?
    ensures var c := Cancel(Current.Persist(), s).session;
            var again := CaptureIdentity(c, name, phone);
            && again.ctx.roamingPlan == Some("None")
            && Cancel(Current.Persist(), again).reply.Success?
            && |Cancel(Current.Persist(), again).session.store| == |s.store| + 2
  {
    var c := Cancel(Current.Persist(), s).session;
    LatestPlanAfterAppend(s.store, Row(name, phone, "None"));
    assert c.store[|c.store| - 1] == Row(name, phone, "None");
    var i :| IsLatestMatch(c.store, name, phone, i) && CaptureIdentity(c, name, phone).ctx.roamingPlan == Some(c.store[i].roamingPlan);
    LatestIsUnique(c.store, name, phone, i);
  }

  /** Reads a stored plan column back, taking the text "None" as no plan. */
  function ParsePlan(text: string): (o: Option<string>)
    ensures o.None? <==> text == "None"
    ensures o.Some? ==> Str(o) == text
  {
    if text == "None" then None else Some(text)
  }

  /** Every plan the tools can hold round-trips through the store's text. */
  lemma ParsePlanRoundTrip(o: Option<string>)
    requires o.None? || RoamingLookup.IsTierName(o.value)
    ensures ParsePlan(Str(o)) == o
  {
  }

  /**
    Identity capture with the stored plan text read back through ParsePlan:
    a customer whose latest row says "None" has no active plan.
   */
  function CaptureIdentityCorrected(s: Session, name: string, phone: string): (r: Session)
    ensures r.ctx.customerName == Some(name) && r.ctx.phoneNumber == Some(phone)
    ensures HasRecord(s.store, name, phone) ==>
      && r.store == s.store
      && r.ctx.roamingPlan != Some("None")
      && exists i :: IsLatestMatch(s.store, name, phone, i) && r.ctx.roamingPlan == ParsePlan(s.store[i].roamingPlan)
    ensures !HasRecord(s.store, name, phone) ==>
      && r.store == s.store + [Row(name, phone, Str(s.ctx.roamingPlan))]
      && r.ctx.roamingPlan == s.ctx.roamingPlan
  {
    var ctx := s.ctx.(customerName := Some(name), phoneNumber := Some(phone));
    match LatestPlan(s.store, name, phone)
    case Some(plan) => Session(ctx.(roamingPlan := ParsePlan(plan)), s.store)
    case None => Session(ctx, s.store + [Row(name, phone, Str(ctx.roamingPlan))])
  }

  /** With the corrected capture, a cancelled plan stays cancelled across re-identification. */
  lemma {:induction false} CorrectedCaptureAfterCancelHasNoPlan(s: Session, name: string, phone: string)
    requires s.ctx.customerName == Some(name) && s.ctx.phoneNumber == Some(phone)
    requires s.ctx.roamingPlan.Some?
    ensures var c := Cancel(Current.Persist(), s).session;
            var again := CaptureIdentityCorrected(c, name, phone);
            && again.ctx.roamingPlan.None?
            && Cancel(Current.Persist(), again).reply == Failure(NoActivePlan)
  {
    var c := Cancel(Current.Persist(), s).session;
    LatestPlanAfterAppend(s.store, Row(name, phone, "None"));
    assert c.store[|c.store| - 1] == Row(name, phone, "None");
  }

  /** With the corrected capture, a persisted purchase is still adopted as it was written. */
  lemma {:induction false} CorrectedCaptureAdoptsPurchase(s: Session, name: string, phone: string, plan: string)
    requires s.ctx.customerName == Some(name) && s.ctx.phoneNumber == Some(phone)
    requires RoamingLookup.IsTierName(plan)
    ensures var p := Purchase(Current.Persist(), s, plan).session;
            CaptureIdentityCorrected(p, name, phone).ctx.roamingPlan == Some(plan)
  {
    var p := Purchase(Current.Persist(), s, plan).session;
    LatestPlanAfterAppend(s.store, Row(name, phone, plan));
    assert p.store == s.store + [Row(name, phone, plan)];
    ParsePlanRoundTrip(Some(plan));
  }

  /** A stored plan column the tools can produce: a tier name, or the text "None". */
  predicate StoredPlanText(text: string) {
    text == "None" || RoamingLookup.IsTierName(text)
  }

  /**
    What the tools keep true when they start from it: every row's plan column
    and the context's plan are a tier name or the text "None".
   */
  predicate PlansWellFormed(s: Session) {
    && (forall i :: 0 <= i < |s.store| ==> StoredPlanText(s.store[i].roamingPlan))
    && (s.ctx.roamingPlan.None? || StoredPlanText(s.ctx.roamingPlan.value))
  }

  /** Identity capture, purchase and cancellation all preserve PlansWellFormed. */
  lemma {:induction false} ToolsPreservePlansWellFormed(persist: bool, s: Session, name: string, phone: string, plan: string)
    requires PlansWellFormed(s)
    ensures PlansWellFormed(CaptureIdentity(s, name, phone))
    ensures PlansWellFormed(Purchase(persist, s, plan).session)
    ensures PlansWellFormed(Cancel(persist, s).session)
  {
    var r := CaptureIdentity(s, name, phone);
    if HasRecord(s.store, name, phone) {
      var i :| IsLatestMatch(s.store, name, phone, i) && r.ctx.roamingPlan == Some(s.store[i].roamingPlan);
      assert StoredPlanText(s.store[i].roamingPlan);
    } else {
      assert StoredPlanText(Str(s.ctx.roamingPlan));
      assert r.store[|s.store|] == Row(name, phone, Str(s.ctx.roamingPlan));
    }
  }
}

=== FILE: wrappers.dfy ===
/** Option and Result shared by every module of the model. */
module Wrappers {

  /** Python's `str | None`: a value that may be absent. */
  datatype Option<+T> = None | Some(value: T)

  /** The outcome of a tool call: a value, or the error the tool raised. */
  datatype Result<+R, +E> = Success(value: R) | Failure(error: E)
}
